=== FILE: README.md ===
# EV3 speaker driver: note parser and tone sequencer

A Dafny model of the tone side of the ev3dev `Speaker` type in Pybricks
(`bricks/ev3dev/pb_type_ev3dev_speaker.c`), and of how `play_file` and
`say` choose the error they raise.

- `Notes` (`notes.dfy`): pitches, the driver's table of base frequencies
  for each note spelling, and the frequency written to the beep device. The
  driver's double constants (16.35 Hz for C, and so on) are kept exactly in
  hundredths of a hertz. The frequency is `base * (2 << octave) / 100`,
  truncated. `TruncationMargin` shows why this integer form agrees with the
  driver's `(int)` cast of the double product.
- `NoteParser` (`note_parser.dfy`): the scan of one note token such as
  `"C#5/8._"`. It returns a `Note` or the `ValueError` the driver raises. A
  read past the end of the text sees `'\0'`, as a C scan of a
  NUL-terminated string does. The module proves a round trip in both
  directions: every spelling of a note parses back to that note, and every
  accepted token is such a spelling followed by characters the scan ignores.
- `ToneTrace` (`tone_trace.dfy`): traces of device writes (`SetTone`) and
  blocking delays (`Delay`). It also holds the integer timing of a note and
  the cut of a trace at an interrupted delay.
- `Speaker` (`speaker.dfy`): `beep`, the playing of one note, and
  `play_notes`. Each is a function to a `Run`, meaning a trace plus how the
  call ends. An exception raised by the outside world inside a delay (a
  keyboard interrupt, say) is an `Interrupt` parameter: the index of the
  delay it fires in.
- `Playback` (`playback.dfy`): the order in which `play_file` and `say`
  pick their outcome. The inputs are what the spawned processes, the pipe
  and the event loop did.

A rest without `_` is played like any released note: it writes 0, waits seven eighths
of its length, writes 0 again and waits the remaining eighth.
`ThreeNoteExample` states a full trace with a rest in it.

## Model

| member | source | states |
|---|---|---|
| Notes.BaseCentiHz | bricks/ev3dev/pb_type_ev3dev_speaker.c:124-223 | the base constant of every allowed spelling is one of the twelve constants of the chromatic scale at octave 0, from 16.35 Hz to 30.87 Hz |
| Notes.Frequency | bricks/ev3dev/pb_type_ev3dev_speaker.c:233-239 | the frequency written to the device is 0 exactly for a rest; every tone gives a nonzero frequency |
| Notes.BaseIsChromatic | bricks/ev3dev/pb_type_ev3dev_speaker.c:124-223 | the base constant of every allowed spelling is the entry of the twelve-note chromatic scale at its semitone; a flat takes the constant of the sharp below it |
| Notes.Enharmonic | bricks/ev3dev/pb_type_ev3dev_speaker.c:124-239 | two spellings give the same frequency in an octave if and only if they name the same semitone (Db and C#, Gb and F#, ...) |
| Notes.HigherSemitoneSoundsHigher | bricks/ev3dev/pb_type_ev3dev_speaker.c:124-239 | within one octave a higher semitone gives a strictly higher device frequency, despite the truncation |
| Notes.ShiftTable | bricks/ev3dev/pb_type_ev3dev_speaker.c:238 | `2 << n` is 2, 4, ..., 512 for the shifts 0..8 |
| Notes.OctaveUp | bricks/ev3dev/pb_type_ev3dev_speaker.c:238 | one octave up doubles the frequency, plus at most the one hertz the truncation adds |
| Notes.FrequencyRange | bricks/ev3dev/pb_type_ev3dev_speaker.c:232-239 | every sounding note lies between 130 Hz (C2) and 15805 Hz (B8) |
| Notes.TruncationMargin | bricks/ev3dev/pb_type_ev3dev_speaker.c:281 | each exact product of a base constant and `2 << octave` is a whole number of hertz or at least 0.04 Hz away from one; off whole hertz the rounding of the double constant cannot cross a hertz boundary, and the whole-hertz products come only from 24.50 and 27.50, which are exact binary doubles, so the truncating `(int)` cast gives the integer the model computes |
| NoteParser.Parse | bricks/ev3dev/pb_type_ev3dev_speaker.c:118-279 | an accepted note is valid (allowed spelling, octave 2-8, fraction at most 99); it is a rest exactly when the token starts with `R`; "Missing note name" is raised exactly when the first character is not A-G or R |
| NoteParser.ParseDuration | bricks/ev3dev/pb_type_ev3dev_speaker.c:241-279 | after the pitch, only "Missing '/'" or "Missing fractional value" can be raised, and an accepted note keeps the pitch already read; "Missing '/'" is raised exactly when the next character is not `/`, and "Missing fractional value" exactly when it is `/` and the character after it is not a digit |
| NoteParser.MessageIdentifies | bricks/ev3dev/pb_type_ev3dev_speaker.c:124-251 | each refusal has its own message text: two refusals give the same message if and only if they are the same refusal |
| NoteParser.MessageShape | bricks/ev3dev/pb_type_ev3dev_speaker.c:124-251 | a refused spelling's message shows its letter and accidental (`'Cb' is not allowed`); each of the other refusals has the length of its fixed text, so the messages tell which check failed |
| NoteParser.SpellingParses | bricks/ev3dev/pb_type_ev3dev_speaker.c:118-279 | every spelling of a valid note, with a one- or two-digit fraction and followed by any text the scan does not take, parses back to that note |
| NoteParser.FormatParses | bricks/ev3dev/pb_type_ev3dev_speaker.c:118-279 | the shortest token written for a note parses back to it |
| NoteParser.ParseDecomposes | bricks/ev3dev/pb_type_ev3dev_speaker.c:118-279 | conversely, every accepted token is a spelling of its note followed by a tail the scan ignores |
| NoteParser.RefusedSpelling | bricks/ev3dev/pb_type_ev3dev_speaker.c:124-223 | `Cb`, `E#`, `Fb` and `B#` are refused at the accidental, whatever follows, and no other token is refused that way |
| NoteParser.RestSkipsOctave | bricks/ev3dev/pb_type_ev3dev_speaker.c:224-250 | a rest must be followed directly by `/` and a digit; such a token is accepted and has frequency 0 |
| NoteParser.OctaveRequired | bricks/ev3dev/pb_type_ev3dev_speaker.c:232-237 | after an allowed note name and accidental, "Missing octave number 2-8" is raised exactly when the next character is not 2-8 |
| NoteParser.FractionDigits | bricks/ev3dev/pb_type_ev3dev_speaker.c:246-259 | the fraction is one required digit, followed by an optional second digit that gives `10*a + b` |
| NoteParser.TieBeforeDot | bricks/ev3dev/pb_type_ev3dev_speaker.c:263-279 | a dot after the tie is not read: `C4/4_.` is the tied quarter C4 |
| NoteParser.ZeroFractionAccepted | bricks/ev3dev/pb_type_ev3dev_speaker.c:246-261 | fractions `0` and `00` pass the grammar, so the division by the fraction that follows is reached with 0 |
| ToneTrace.WholeNoteMs | bricks/ev3dev/pb_type_ev3dev_speaker.c:303-304 | a whole note lasts 240000 / tempo ms, truncated |
| ToneTrace.Dotted | bricks/ev3dev/pb_type_ev3dev_speaker.c:265-268 | a dotted length is one and a half times the length, truncated |
| ToneTrace.NoteMs | bricks/ev3dev/pb_type_ev3dev_speaker.c:261-268 | a note lasts the whole note divided by its fraction, truncated; a dotted note lasts three halves of that truncated length, truncated again |
| ToneTrace.NoteEvents | bricks/ev3dev/pb_type_ev3dev_speaker.c:281-293 | a note's events start by writing its frequency; a released note then waits seven eighths of its length (truncated), writes 0 and waits one eighth (truncated); a tied note waits its whole length |
| ToneTrace.NoteTiming | bricks/ev3dev/pb_type_ev3dev_speaker.c:281-293 | a released note's delays add up to its length less one when the length is not a multiple of 8, and the note leaves the device silent; a tied note waits its whole length and leaves its tone sounding |
| ToneTrace.DefaultTempo | bricks/ev3dev/pb_type_ev3dev_speaker.c:300-304 | at the default tempo 120, a whole note is 2000 ms, a quarter 500 ms and a dotted eighth 375 ms |
| ToneTrace.CutIsPrefix | bricks/ev3dev/pb_type_ev3dev_speaker.c:306-321 | the events up to an interrupted delay are a prefix of the trace that ends in that delay, or the whole trace when it has no such delay |
| ToneTrace.CutConcat | bricks/ev3dev/pb_type_ev3dev_speaker.c:310-312 | an interrupt in a sequence of notes cuts the note in which the interrupted delay falls |
| Speaker.Beep | bricks/ev3dev/pb_type_ev3dev_speaker.c:84-115 | the first write is the frequency; a failed first write raises `OSError` and does nothing more; a negative duration leaves the tone on and returns; otherwise the delays add up to the duration and the device ends silent, and an interrupt in the delay is re-raised after the silencing write |
| Speaker.BeepIsTiedNote | bricks/ev3dev/pb_type_ev3dev_speaker.c:103-112 | a beep is the trace of a tied note of its duration, followed by silence |
| Speaker.BeepInterruptKeepsTrace | bricks/ev3dev/pb_type_ev3dev_speaker.c:103-112 | an interrupt during the delay of a beep changes how the call ends, not what it writes |
| Speaker.BeepLeavesTone | bricks/ev3dev/pb_type_ev3dev_speaker.c:94-112 | after a beep the device is silent, except after a negative duration, which leaves the tone sounding |
| Speaker.PlayTone | bricks/ev3dev/pb_type_ev3dev_speaker.c:281-293 | a note either returns or re-raises an interrupt, and its first write is always its frequency |
| Speaker.PlayToneUninterrupted | bricks/ev3dev/pb_type_ev3dev_speaker.c:281-293 | without an interrupt a note issues exactly its declared events: seven eighths of sound and one eighth of silence, or a tied note's whole length |
| Speaker.PlayToneInterrupted | bricks/ev3dev/pb_type_ev3dev_speaker.c:286-293 | an interrupt in one of a note's delays ends the note right after that delay, with the events before it unchanged; otherwise the note plays in full |
| Speaker.Prepare | bricks/ev3dev/pb_type_ev3dev_speaker.c:119-279 | an element is played exactly when it is a string that parses with a fraction other than 0, at its pitch's frequency and its length, released unless tied; a refused token raises the parser's `ValueError`; an element that is not a readable string raises its own error; an accepted fraction of 0 ends in the undefined division |
| Speaker.PlayStepsEnding | bricks/ev3dev/pb_type_ev3dev_speaker.c:310-312 | the loop returns or re-raises an interrupt whenever every element can be played; any other ending is the ending of one of the elements |
| Speaker.PlayNotes | bricks/ev3dev/pb_type_ev3dev_speaker.c:296-324 | once the loop over the elements has started, `play_notes` ends with a write of 0, both on return and on an exception, unless the undefined division was reached |
| Speaker.PlayNotesUninterrupted | bricks/ev3dev/pb_type_ev3dev_speaker.c:308-321 | without interrupts, every element before the first one that cannot be played plays in full, in order; the call then silences the device and returns, or raises that element's error |
| Speaker.PlayStepsUninterrupted | bricks/ev3dev/pb_type_ev3dev_speaker.c:310-312 | the loop over the elements plays the concatenation of the notes' events up to the first element that stops it |
| Speaker.PlayStepsInterrupted | bricks/ev3dev/pb_type_ev3dev_speaker.c:310-312 | the loop under an interrupt is the uninterrupted loop cut at the interrupted delay, when it gets that far |
| Speaker.SequenceInterrupted | bricks/ev3dev/pb_type_ev3dev_speaker.c:310-312 | when one note and the rest of the loop each obey the cut rule, so does the note followed by the rest |
| Speaker.PlayNotesInterrupted | bricks/ev3dev/pb_type_ev3dev_speaker.c:306-321 | an interrupt in the k-th delay gives the uninterrupted trace up to that delay, then the silencing write, and re-raises; when the call makes fewer delays it has no effect |
| Speaker.PlayNotesSilent | bricks/ev3dev/pb_type_ev3dev_speaker.c:313-320 | once the loop over the elements has started, the device is silent when `play_notes` ends, whatever happens apart from the undefined division |
| Speaker.ThreeNoteExample | bricks/ev3dev/pb_type_ev3dev_speaker.c:281-321 | quarter C4, eighth rest and tied quarter A4 at tempo 120 give 523 Hz for 437 ms, 0 for 62 ms, 0 for 218 ms, 0 for 31 ms, 880 Hz for 500 ms, then 0 |
| Playback.CString | bricks/ev3dev/pb_type_ev3dev_speaker.c:393-398 | the text printed for the standard error buffer is its longest prefix without a NUL |
| Playback.Detail | bricks/ev3dev/pb_type_ev3dev_speaker.c:383-396 | when the standard error read succeeded and at least one byte came back, the detail is the longest NUL-free prefix of the bytes read; otherwise it is the GLib message |
| Playback.PlayFile | bricks/ev3dev/pb_type_ev3dev_speaker.c:335-406 | after a successful spawn, a caught exception is re-raised exactly when one was caught; the call returns exactly when nothing was caught and `aplay` succeeded; otherwise the message is "Playing file failed: " and the detail; a failed spawn raises "Failed to spawn aplay: " with the GLib message |
| Playback.Say | bricks/ev3dev/pb_type_ev3dev_speaker.c:425-541 | `say` returns exactly when both spawns succeeded, nothing was caught and both processes succeeded; it re-raises exactly when both spawned and something was caught; a failed `espeak` spawn and then a failed `aplay` spawn each raise "Failed to spawn ...: " with the GLib message; otherwise a failed `aplay` raises "Saying text failed: " with its detail, and a failed `espeak` alone raises the same prefix with the detail of `espeak` |
| Playback.CaughtWins | bricks/ev3dev/pb_type_ev3dev_speaker.c:362-380 | once the processes are running, the last exception caught while polling is raised, whatever the processes did |
| Playback.SpliceIgnored | bricks/ev3dev/pb_type_ev3dev_speaker.c:416-422 | the result of the splice between `espeak` and `aplay` never changes what `say` does |
| Playback.AplayBeforeEspeak | bricks/ev3dev/pb_type_ev3dev_speaker.c:493-535 | when both processes fail, `say` reports the failure of `aplay` |
| Playback.EspeakSpawnFirst | bricks/ev3dev/pb_type_ev3dev_speaker.c:438-446 | a failure to spawn `espeak` is reported before anything about `aplay` |
| Playback.SayLikePlayFile | bricks/ev3dev/pb_type_ev3dev_speaker.c:335-541 | when `espeak` succeeds, `say` ends as `play_file` does for the same `aplay`, with "Saying text failed: " in place of "Playing file failed: " |
| Playback.StderrPreferred | bricks/ev3dev/pb_type_ev3dev_speaker.c:386-396 | standard error text without a NUL is shown in full; a failed or empty read falls back to the GLib message |

## Left out

- `tempo` at most 0: `WholeNoteMs` requires a positive tempo. The driver divides by the tempo without checking it; 0 is undefined and a negative tempo gives negative delays.
- Integer widths: the `mp_int_t` to `int` conversion of the frequency passed to the device, and of the `beep` duration, is not modelled. All lengths in `play_notes` are far below 2^31.
- Floating point: frequencies are exact integers in centi-Hz. `Notes.TruncationMargin` covers the one place where the double result matters.
- The body of `set_beep_frequency` (the event-device write) is not modelled, nor `make_new` or the object's file descriptor. In `beep` only whether the first write fails is a parameter. In `play_note` and `play_notes` the driver ignores the result of each write, and so does the model.
- Speaker.PlayNotes: the `TypeError` of a tempo that is not an integer (line 304) and of `notes` that cannot be iterated (line 308) is raised before the loop starts. It leaves without any write, so a tone left on by `beep` keeps sounding. The model starts at the loop, so its silencing promise covers only calls that reach it.
- Argument parsing and its defaults are left out. So is `mp_obj_str_get_str` on a non-string element of `play_notes`: its `TypeError`, or an exception raised while iterating, is the `Unreadable` item.
- A fraction of 0: the parser accepts it and the driver then divides by zero, which C leaves undefined. `play_notes` ends with the outcome `Undefined` there, and nothing is claimed past it.
- Real-time behaviour of the delays, and where an interrupt can fire other than inside a delay.
- `play_file` and `say`: the subprocesses, the pipe, the GLib main loop and the object's busy flags are left out. Their results are parameters, and only the choice of error is modelled. Argument conversion and the freeing of GLib objects are not modelled either.
- Playback.Detail: a read that fills the whole 4096-byte buffer is modelled as if the terminating NUL fit. The source writes that terminator one byte past the buffer.
- Re-entrancy and thread safety of `play_file` and `say` (marked as a known problem in the source).

=== FILE: note_parser.dfy ===
/**
 The note tokens accepted by `Speaker.play_notes`, such as `"C#4/8._"`.

 A token is read left to right in one pass: a note name (`A`-`G`, or `R`
 for a rest), an optional accidental (`#` or `b`), an octave digit `2`-`8`
 (not for a rest), a `/`, one or two fraction digits, then optionally `.`
 (dotted) and `_` (tied). The driver reads the token as a C string, so a
 read past the last character sees the terminating NUL; `At` models that.
 Optional parts are "peeked": when the character is not the expected one the
 scan stays where it was. Nothing after the last optional part is examined.
 */
module NoteParser {
  import opened Notes

  /** A parsed token: pitch, fraction denominator (4 = quarter note), dot and tie. */
  datatype Note = Note(pitch: Pitch, fraction: nat, dotted: bool, tied: bool)

  /** The ways a token is refused, one per `ValueError` the driver raises. */
  datatype ParseError =
    | MissingNoteName
    | NotAllowed(letter: Letter, accidental: Accidental)
    | MissingOctave
    | MissingSlash
    | MissingFraction

  datatype Parsed = Ok(note: Note) | Err(error: ParseError)

  /** A note as the parser can produce it; the fraction may be 0. */
  predicate ValidNote(n: Note) {
    ValidPitch(n.pitch) && n.fraction <= 99
  }

  /** The character at position i, or the C string terminator past the end. */
  function At(s: string, i: nat): char {
    if i < |s| then s[i] else '\0'
  }

  predicate IsDigit(c: char) {
    '0' <= c <= '9'
  }

  function DigitValue(c: char): (d: nat)
    requires IsDigit(c)
    ensures d < 10
  {
    c as int - '0' as int
  }

  function DigitChar(d: nat): (c: char)
    requires d < 10
    ensures IsDigit(c) && DigitValue(c) == d
  {
    ('0' as int + d) as char
  }

  function LetterChar(l: Letter): char {
    match l
    case C => 'C'
    case D => 'D'
    case E => 'E'
    case F => 'F'
    case G => 'G'
    case A => 'A'
    case B => 'B'
  }

  predicate IsLetterChar(c: char) {
    c in "ABCDEFG"
  }

  function LetterOf(c: char): (l: Letter)
    requires IsLetterChar(c)
    ensures LetterChar(l) == c
  {
    match c
    case 'C' => C
    case 'D' => D
    case 'E' => E
    case 'F' => F
    case 'G' => G
    case 'A' => A
    case _ => B
  }

  function AccidentalText(a: Accidental): string {
    match a
    case Natural => ""
    case Sharp => "#"
    case Flat => "b"
  }

  /** The exact text of the `ValueError` raised for each refusal. */
  function Message(e: ParseError): string {
    match e
    case MissingNoteName => "Missing note name A-G or R"
    case NotAllowed(l, a) => "'" + [LetterChar(l)] + AccidentalText(a) + "' is not allowed"
    case MissingOctave => "Missing octave number 2-8"
    case MissingSlash => "Missing '/'"
    case MissingFraction => "Missing fractional value 1, 2, 4, 8, etc."
  }

  /** Each refusal has its own text, so the message tells which check failed. */
  lemma {:induction false} MessageIdentifies(e1: ParseError, e2: ParseError)
    ensures Message(e1) == Message(e2) <==> e1 == e2
  {
    var m1, m2 := Message(e1), Message(e2);
    MessageShape(e1);
    MessageShape(e2);
    if m1 == m2 && e1.NotAllowed? && e2.NotAllowed? {
      LetterCharInjective(e1.letter, e2.letter);
      assert m1[2] == m2[2];
    }
  }

  /** The length of each message, and the letter and accidental a refused spelling shows. */
  lemma MessageShape(e: ParseError)
    ensures var m := Message(e);
      match e
      case MissingNoteName => |m| == 26
      case NotAllowed(l, a) =>
        |m| == 18 + |AccidentalText(a)| && m[1] == LetterChar(l)
        && m[2] == (match a case Natural => '\'' case Sharp => '#' case Flat => 'b')
      case MissingOctave => |m| == 25
      case MissingSlash => |m| == 11
      case MissingFraction => |m| == 41
  {
  }

  lemma LetterCharInjective(l1: Letter, l2: Letter)
    ensures LetterChar(l1) == LetterChar(l2) <==> l1 == l2
  {
  }

  /** Parse one note token. */
  function Parse(s: string): (r: Parsed)
    ensures r.Ok? ==> ValidNote(r.note)
    ensures r.Ok? ==> (r.note.pitch.Rest? <==> At(s, 0) == 'R')
    ensures r == Err(MissingNoteName) <==> !(At(s, 0) == 'R' || IsLetterChar(At(s, 0)))
  {
    var c := At(s, 0);
    if c == 'R' then
      ParseDuration(s, Rest, 1)
    else if !IsLetterChar(c) then
      Err(MissingNoteName)
    else
      var l := LetterOf(c);
      var m := At(s, 1);
      var a := if m == 'b' then Flat else if m == '#' then Sharp else Natural;
      var pos := if a == Natural then 1 else 2;
      if !Allowed(l, a) then
        Err(NotAllowed(l, a))
      else
        var o := At(s, pos);
        if !('2' <= o <= '8') then
          Err(MissingOctave)
        else
          ParseDuration(s, Tone(l, a, DigitValue(o)), pos + 1)
  }

  /** The part of a token from the `/` on, for an already-read pitch. */
  function ParseDuration(s: string, p: Pitch, pos: nat): (r: Parsed)
    requires ValidPitch(p)
    ensures r.Ok? ==> ValidNote(r.note) && r.note.pitch == p
    ensures r.Err? ==> r.error in {MissingSlash, MissingFraction}
    ensures r == Err(MissingSlash) <==> At(s, pos) != '/'
    ensures r == Err(MissingFraction) <==> At(s, pos) == '/' && !IsDigit(At(s, pos + 1))
  {
    if At(s, pos) != '/' then
      Err(MissingSlash)
    else
      var f1 := At(s, pos + 1);
      if !IsDigit(f1) then
        Err(MissingFraction)
      else
        var f2 := At(s, pos + 2);
        var fraction := if IsDigit(f2) then 10 * DigitValue(f1) + DigitValue(f2) else DigitValue(f1);
        var next := if IsDigit(f2) then pos + 3 else pos + 2;
        var dotted := At(s, next) == '.';
        var tied := At(s, if dotted then next + 1 else next) == '_';
        Ok(Note(p, fraction, dotted, tied))
  }

  // ---------------------------------------------------------------------
  // Writing notes back as tokens

  function PitchText(p: Pitch): string
    requires ValidPitch(p)
  {
    match p
    case Rest => "R"
    case Tone(l, a, o) => [LetterChar(l)] + AccidentalText(a) + [DigitChar(o)]
  }

  /** The fraction in one digit, or in two when `wide` (a leading 0 below 10). */
  function FractionText(f: nat, wide: bool): string
    requires f <= 99 && (f >= 10 ==> wide)
  {
    if wide then [DigitChar(f / 10), DigitChar(f % 10)] else [DigitChar(f)]
  }

  /** A token spelling note n, with the fraction written wide or narrow. */
  function Spelling(n: Note, wide: bool): string
    requires ValidNote(n) && (n.fraction >= 10 ==> wide)
  {
    PitchText(n.pitch) + "/" + FractionText(n.fraction, wide)
      + (if n.dotted then "." else "") + (if n.tied then "_" else "")
  }

  /** The shortest token for n. */
  function Format(n: Note): string
    requires ValidNote(n)
  {
    Spelling(n, n.fraction >= 10)
  }

  /**
   Characters after a spelling that the scan does not take as part of the
   note: after the last optional part read, anything; otherwise not a
   character that part would accept.
   */
  predicate Inert(n: Note, wide: bool, tail: string) {
    var c := At(tail, 0);
    if n.tied then true
    else if n.dotted then c != '_'
    else c != '.' && c != '_' && (wide || !IsDigit(c))
  }

  // ---------------------------------------------------------------------
  // Lemmas

  lemma AtConcat(x: string, y: string, i: nat)
    ensures At(x + y, i) == if i < |x| then x[i] else At(y, i - |x|)
  {
  }

  /** Reading the duration part only looks at and after its own position. */
  lemma {:induction false} ParseDurationShift(x: string, y: string, p: Pitch, pos: nat)
    requires ValidPitch(p)
    ensures ParseDuration(x + y, p, |x| + pos) == ParseDuration(y, p, pos)
  {
    AtConcat(x, y, |x| + pos);
    AtConcat(x, y, |x| + pos + 1);
    AtConcat(x, y, |x| + pos + 2);
    AtConcat(x, y, |x| + pos + 3);
    AtConcat(x, y, |x| + pos + 4);
  }

  /** The duration part of a spelling, followed by an inert tail, reads back. */
  lemma {:induction false} DurationRoundTrip(n: Note, wide: bool, tail: string)
    requires ValidNote(n) && (n.fraction >= 10 ==> wide)
    requires Inert(n, wide, tail)
    ensures ParseDuration("/" + FractionText(n.fraction, wide)
      + (if n.dotted then "." else "") + (if n.tied then "_" else "") + tail, n.pitch, 0) == Ok(n)
  {
    var ft := FractionText(n.fraction, wide);
    var dt := if n.dotted then "." else "";
    var tt := if n.tied then "_" else "";
    var rest := dt + tt + tail;
    var s := "/" + ft + dt + tt + tail;
    assert s == "/" + ft + rest;
    AtConcat("/" + ft, rest, 0);
    AtConcat("/" + ft, rest, 1);
    AtConcat("/" + ft, rest, 2);
    AtConcat("/" + ft, rest, 3);
    AtConcat(dt, tt + tail, 0);
    AtConcat(dt, tt + tail, 1);
    AtConcat(tt, tail, 0);
    AtConcat(tt, tail, 1);
    var next := 1 + |ft|;
    assert At(s, next) == At(rest, 0);
    if wide {
      assert n.fraction == 10 * (n.fraction / 10) + n.fraction % 10;
    }
    if n.dotted {
      assert At(s, next + 1) == At(rest, 1);
    }
  }

  /** The scan of a written pitch ends right after it and continues with the duration part. */
  lemma {:induction false} PitchPartParses(p: Pitch, dur: string)
    requires ValidPitch(p)
    ensures Parse(PitchText(p) + dur) == ParseDuration(dur, p, 0)
  {
    var pt := PitchText(p);
    var s := pt + dur;
    ParseDurationShift(pt, dur, p, 0);
    AtConcat(pt, dur, 0);
    AtConcat(pt, dur, 1);
    AtConcat(pt, dur, 2);
    match p
    case Rest =>
    case Tone(l, a, o) =>
      assert s[0] == LetterChar(l);
      if a == Natural {
        assert s[1] == DigitChar(o);
      } else {
        assert s[1] == AccidentalText(a)[0];
        assert s[2] == DigitChar(o);
      }
  }

  /**
   Round trip: every spelling of a valid note, followed by anything the scan
   does not take, parses back to that note. Trailing characters are ignored.
   */
  lemma {:induction false} SpellingParses(n: Note, wide: bool, tail: string)
    requires ValidNote(n) && (n.fraction >= 10 ==> wide)
    requires Inert(n, wide, tail)
    ensures Parse(Spelling(n, wide) + tail) == Ok(n)
  {
    var pt := PitchText(n.pitch);
    var dur := "/" + FractionText(n.fraction, wide)
      + (if n.dotted then "." else "") + (if n.tied then "_" else "") + tail;
    assert Spelling(n, wide) + tail == pt + dur;
    DurationRoundTrip(n, wide, tail);
    PitchPartParses(n.pitch, dur);
  }

  /** In particular, the shortest token for a note parses back to it. */
  lemma FormatParses(n: Note)
    requires ValidNote(n)
    ensures Parse(Format(n)) == Ok(n)
  {
    SpellingParses(n, n.fraction >= 10, "");
    assert Format(n) + "" == Format(n);
  }

  /** An accepted token starts with its pitch written out, and the scan goes on after it. */
  lemma {:induction false} PitchPartOf(s: string, n: Note)
    requires Parse(s) == Ok(n)
    ensures |PitchText(n.pitch)| <= |s|
    ensures s[..|PitchText(n.pitch)|] == PitchText(n.pitch)
    ensures ParseDuration(s, n.pitch, |PitchText(n.pitch)|) == Ok(n)
  {
    assert At(s, 0) != '\0';
    match n.pitch
    case Rest =>
    case Tone(l, a, o) =>
      assert s[0] == LetterChar(l);
      if a == Natural {
        assert At(s, 1) == DigitChar(o);
        assert s[..2] == [LetterChar(l), DigitChar(o)];
      } else {
        assert At(s, 1) == AccidentalText(a)[0];
        assert At(s, 2) == DigitChar(o);
        assert s[..3] == [LetterChar(l)] + AccidentalText(a) + [DigitChar(o)];
      }
  }

  /** An accepted duration part is a written duration followed by a tail the scan did not take. */
  lemma {:induction false} DurationPartOf(s: string, pos: nat, n: Note) returns (wide: bool, last: nat)
    requires ValidPitch(n.pitch)
    requires ParseDuration(s, n.pitch, pos) == Ok(n)
    ensures ValidNote(n) && (n.fraction >= 10 ==> wide)
    ensures pos <= last <= |s|
    ensures s[pos..last] == "/" + FractionText(n.fraction, wide)
      + (if n.dotted then "." else "") + (if n.tied then "_" else "")
    ensures Inert(n, wide, s[last..])
  {
    DurationFields(s, n.pitch, pos);
    wide := IsDigit(At(s, pos + 2));
    var next := if wide then pos + 3 else pos + 2;
    FractionLayout(s, pos, n.fraction, wide);
    last := DecorationLayout(s, next, n);
    SliceSplit(s, pos, next, last);
    assert At(s[last..], 0) == At(s, last);
  }

  /** The slash and the fraction digits as they stand in the text. */
  lemma FractionLayout(s: string, pos: nat, fraction: nat, wide: bool)
    requires At(s, pos) == '/' && IsDigit(At(s, pos + 1))
    requires wide == IsDigit(At(s, pos + 2))
    requires fraction == if wide then 10 * DigitValue(At(s, pos + 1)) + DigitValue(At(s, pos + 2))
      else DigitValue(At(s, pos + 1))
    ensures fraction <= 99 && (fraction >= 10 ==> wide)
    ensures (if wide then pos + 3 else pos + 2) <= |s|
    ensures s[pos..if wide then pos + 3 else pos + 2] == "/" + FractionText(fraction, wide)
  {
    var f1, f2 := At(s, pos + 1), At(s, pos + 2);
    assert pos + 1 < |s| && s[pos] == '/' && s[pos + 1] == f1;
    if wide {
      assert pos + 2 < |s| && s[pos + 2] == f2;
      DigitsText(f1, f2);
      assert s[pos..pos + 3] == ['/', f1, f2];
    } else {
      DigitText(f1);
      assert s[pos..pos + 2] == ['/', f1];
    }
  }

  /** The optional dot and tie as they stand in the text; the scan stops after the last one read. */
  lemma DecorationLayout(s: string, next: nat, n: Note) returns (last: nat)
    requires next <= |s|
    requires n.dotted == (At(s, next) == '.')
    requires n.tied == (At(s, if n.dotted then next + 1 else next) == '_')
    ensures next <= last <= |s|
    ensures s[next..last] == (if n.dotted then "." else "") + (if n.tied then "_" else "")
    ensures n.tied || At(s, last) != '_'
    ensures n.dotted || n.tied || At(s, last) != '.'
  {
    var mid := if n.dotted then next + 1 else next;
    last := if n.tied then mid + 1 else mid;
    if n.dotted {
      assert s[next] == '.';
    }
    if n.tied {
      assert s[mid] == '_';
    }
    SliceSplit(s, next, mid, last);
  }

  /** The fields of an accepted duration part, character by character. */
  lemma DurationFields(s: string, p: Pitch, pos: nat)
    requires ValidPitch(p) && ParseDuration(s, p, pos).Ok?
    ensures var n := ParseDuration(s, p, pos).note;
      var f1, f2 := At(s, pos + 1), At(s, pos + 2);
      var next := if IsDigit(f2) then pos + 3 else pos + 2;
      && At(s, pos) == '/' && IsDigit(f1)
      && n.fraction == (if IsDigit(f2) then 10 * DigitValue(f1) + DigitValue(f2) else DigitValue(f1))
      && n.dotted == (At(s, next) == '.')
      && n.tied == (At(s, if n.dotted then next + 1 else next) == '_')
  {
  }

  /** Two digits written back from their value give the same two characters. */
  lemma DigitsText(a: char, b: char)
    requires IsDigit(a) && IsDigit(b)
    ensures FractionText(10 * DigitValue(a) + DigitValue(b), true) == [a, b]
  {
    var f := 10 * DigitValue(a) + DigitValue(b);
    assert f / 10 == DigitValue(a) && f % 10 == DigitValue(b);
  }

  lemma DigitText(a: char)
    requires IsDigit(a)
    ensures FractionText(DigitValue(a), false) == [a]
  {
  }

  lemma SliceSplit(s: string, a: nat, b: nat, c: nat)
    requires a <= b <= c <= |s|
    ensures s[a..c] == s[a..b] + s[b..c]
  {
  }

  /**
   Conversely, every accepted token is a spelling of the note it yields
   followed by a tail the scan did not take.
   */
  lemma {:induction false} ParseDecomposes(s: string, n: Note) returns (wide: bool, tail: string)
    requires Parse(s) == Ok(n)
    ensures ValidNote(n) && (n.fraction >= 10 ==> wide)
    ensures s == Spelling(n, wide) + tail
    ensures Inert(n, wide, tail)
  {
    PitchPartOf(s, n);
    var pos := |PitchText(n.pitch)|;
    var last;
    wide, last := DurationPartOf(s, pos, n);
    tail := s[last..];
    Reassemble(s, n, wide, pos, last);
  }

  lemma Reassemble(s: string, n: Note, wide: bool, pos: nat, last: nat)
    requires ValidNote(n) && (n.fraction >= 10 ==> wide)
    requires pos <= last <= |s|
    requires s[..pos] == PitchText(n.pitch)
    requires s[pos..last] == "/" + FractionText(n.fraction, wide)
      + (if n.dotted then "." else "") + (if n.tied then "_" else "")
    ensures s == Spelling(n, wide) + s[last..]
  {
    assert Spelling(n, wide) == s[..pos] + s[pos..last];
    assert s[..last] == s[..pos] + s[pos..last];
    assert s == s[..last] + s[last..];
  }

  /**
   `Cb`, `E#`, `Fb` and `B#` are refused at the accidental, whatever
   follows, and nothing else is refused that way.
   */
  lemma RefusedSpelling(s: string, l: Letter, a: Accidental)
    ensures Parse(s) == Err(NotAllowed(l, a))
      <==> !Allowed(l, a) && At(s, 0) == LetterChar(l) && At(s, 1) == AccidentalText(a)[0]
  {
  }

  /**
   A rest takes no octave: `R` must be followed directly by `/`, so `"R/4"`
   parses with frequency 0 and `"R4/4"` is refused with "Missing '/'".
   */
  lemma RestSkipsOctave(s: string)
    requires At(s, 0) == 'R'
    ensures At(s, 1) != '/' <==> Parse(s) == Err(MissingSlash)
    ensures At(s, 1) == '/' && IsDigit(At(s, 2)) <==> Parse(s).Ok?
    ensures Parse(s).Ok? ==> Frequency(Parse(s).note.pitch) == 0
  {
  }

  /**
   A note name, with its accidental if any, must be followed by an octave
   digit 2-8; the accidental is taken only when it is `#` or `b`.
   */
  lemma OctaveRequired(s: string)
    requires IsLetterChar(At(s, 0))
    ensures var m := At(s, 1);
      var pos := if m == 'b' || m == '#' then 2 else 1;
      (Parse(s) == Err(MissingOctave))
        <==> (Allowed(LetterOf(At(s, 0)), if m == 'b' then Flat else if m == '#' then Sharp else Natural)
             && !('2' <= At(s, pos) <= '8'))
  {
  }

  /** The fraction is one mandatory digit and an optional second one, `10*a + b`. */
  lemma FractionDigits(s: string, n: Note, pos: nat)
    requires Parse(s) == Ok(n)
    requires pos == |PitchText(n.pitch)|
    ensures IsDigit(At(s, pos + 1))
    ensures n.fraction == if IsDigit(At(s, pos + 2))
      then 10 * DigitValue(At(s, pos + 1)) + DigitValue(At(s, pos + 2))
      else DigitValue(At(s, pos + 1))
  {
    var w, t := ParseDecomposes(s, n);
    var sp := Spelling(n, w);
    AtConcat(sp, t, pos + 1);
    AtConcat(sp, t, pos + 2);
    if w {
      assert n.fraction == 10 * (n.fraction / 10) + n.fraction % 10;
    }
  }

  /** A tie written before a dot is kept and the dot after it is ignored. */
  lemma TieBeforeDot(n: Note)
    requires ValidNote(n) && !n.dotted && n.tied
    ensures Parse(Format(n) + ".") == Ok(n)
  {
    SpellingParses(n, n.fraction >= 10, ".");
  }

  /** A fraction of 0, written `0` or `00`, passes the grammar. */
  lemma ZeroFractionAccepted()
    ensures Parse("C4/0") == Ok(Note(Tone(C, Natural, 4), 0, false, false))
    ensures Parse("R/00") == Ok(Note(Rest, 0, false, false))
  {
  }
}

=== FILE: notes.dfy ===
/**
 Pitches of the EV3 speaker's note notation and the tone frequency each one
 sounds at.

 The driver keeps one base frequency per note name at "octave 0" as a C
 double (16.35 Hz for C up to 30.87 Hz for B) and multiplies it by
 `2 << octave` before truncating to an integer. This module keeps the same
 twelve constants exactly, in hundredths of a hertz, so that the whole
 computation is integer arithmetic; `TruncationMargin` shows why that
 agrees with the double computation for every octave the parser accepts.
 */
module Notes {

  /** The seven note names A-G. */
  datatype Letter = C | D | E | F | G | A | B

  /** No accidental, `#` or `b`. */
  datatype Accidental = Natural | Sharp | Flat

  /** A rest (`R`) or a sounding pitch with the octave digit that followed it. */
  datatype Pitch = Rest | Tone(letter: Letter, accidental: Accidental, octave: nat)

  /** Lowest and highest octave digit the parser accepts. */
  const MinOctave: nat := 2
  const MaxOctave: nat := 8

  /** `Cb`, `E#`, `Fb` and `B#` are refused; every other spelling is allowed. */
  predicate Allowed(l: Letter, a: Accidental) {
    match (l, a)
    case (C, Flat) => false
    case (E, Sharp) => false
    case (F, Flat) => false
    case (B, Sharp) => false
    case _ => true
  }

  /** A pitch as the parser can produce it. */
  predicate ValidPitch(p: Pitch) {
    p.Tone? ==> Allowed(p.letter, p.accidental) && MinOctave <= p.octave <= MaxOctave
  }

  /**
   The base frequency of a spelling in centi-Hz, case by case as the driver's
   switch assigns it (a flat carries the constant of the sharp one semitone
   below it).
   */
  function BaseCentiHz(l: Letter, a: Accidental): (b: nat)
    requires Allowed(l, a)
    ensures b in Chromatic
  {
    match l
    case C => (match a case Sharp => 1732 case _ => 1635)
    case D => (match a case Flat => 1732 case Sharp => 1945 case Natural => 1835)
    case E => (match a case Flat => 1945 case _ => 2060)
    case F => (match a case Sharp => 2312 case _ => 2183)
    case G => (match a case Flat => 2312 case Sharp => 2596 case Natural => 2450)
    case A => (match a case Flat => 2596 case Sharp => 2914 case Natural => 2750)
    case B => (match a case Flat => 2914 case _ => 3087)
  }

  /** The chromatic scale at octave 0 in centi-Hz, one entry per semitone from C. */
  const Chromatic: seq<nat> :=
    [1635, 1732, 1835, 1945, 2060, 2183, 2312, 2450, 2596, 2750, 2914, 3087]

  /** Semitones above C of a natural note name. */
  function NaturalSemitone(l: Letter): (k: nat)
    ensures k < 12
  {
    match l
    case C => 0
    case D => 2
    case E => 4
    case F => 5
    case G => 7
    case A => 9
    case B => 11
  }

  /** Semitones above C of a spelling: a sharp raises and a flat lowers by one. */
  function Semitone(l: Letter, a: Accidental): (k: nat)
    requires Allowed(l, a)
    ensures k < 12
  {
    match a
    case Natural => NaturalSemitone(l)
    case Sharp => NaturalSemitone(l) + 1
    case Flat => NaturalSemitone(l) - 1
  }

  /** `2 << n` in C for the small shifts used here: 2 to the power n + 1. */
  function ShiftTwo(n: nat): (r: nat)
    ensures r >= 2
  {
    if n == 0 then 2 else 2 * ShiftTwo(n - 1)
  }

  /**
   The integer frequency handed to the tone device: 0 for a rest, otherwise
   the base frequency times `2 << octave`, truncated to whole hertz.
   */
  function Frequency(p: Pitch): (f: nat)
    requires ValidPitch(p)
    ensures f == 0 <==> p.Rest?
  {
    match p
    case Rest => 0
    case Tone(l, a, o) => BaseCentiHz(l, a) * ShiftTwo(o) / 100
  }

  /** The driver's case-by-case table is the chromatic scale indexed by semitone. */
  lemma BaseIsChromatic(l: Letter, a: Accidental)
    requires Allowed(l, a)
    ensures BaseCentiHz(l, a) == Chromatic[Semitone(l, a)]
  {
  }

  /** Two spellings of the same semitone (Db and C#, Eb and D#, ...) sound alike. */
  lemma {:induction false} Enharmonic(l1: Letter, a1: Accidental, l2: Letter, a2: Accidental, o: nat)
    requires Allowed(l1, a1) && Allowed(l2, a2)
    requires MinOctave <= o <= MaxOctave
    ensures Semitone(l1, a1) == Semitone(l2, a2) <==> Frequency(Tone(l1, a1, o)) == Frequency(Tone(l2, a2, o))
  {
    BaseIsChromatic(l1, a1);
    BaseIsChromatic(l2, a2);
    var i, j := Semitone(l1, a1), Semitone(l2, a2);
    if i < j {
      HigherSemitoneSoundsHigher(l1, a1, l2, a2, o);
    } else if j < i {
      HigherSemitoneSoundsHigher(l2, a2, l1, a1, o);
    }
  }

  /** Within one octave a higher semitone gives a strictly higher frequency. */
  lemma {:induction false} HigherSemitoneSoundsHigher(l1: Letter, a1: Accidental, l2: Letter, a2: Accidental, o: nat)
    requires Allowed(l1, a1) && Allowed(l2, a2)
    requires MinOctave <= o <= MaxOctave
    requires Semitone(l1, a1) < Semitone(l2, a2)
    ensures Frequency(Tone(l1, a1, o)) < Frequency(Tone(l2, a2, o))
  {
    BaseIsChromatic(l1, a1);
    BaseIsChromatic(l2, a2);
    ChromaticGap(Semitone(l1, a1), Semitone(l2, a2));
    var m := ShiftTwo(o);
    ShiftTable(o);
    ScaleGap(BaseCentiHz(l1, a1), BaseCentiHz(l2, a2), m);
  }

  /** Neighbouring entries of the chromatic scale are at least 77 centi-Hz apart. */
  lemma ChromaticGap(i: nat, j: nat)
    requires i < j < 12
    ensures Chromatic[i] + 77 <= Chromatic[j]
  {
  }

  /** Scaling two constants 77 apart by at least 8 keeps them apart after truncation to hertz. */
  lemma ScaleGap(b1: nat, b2: nat, m: nat)
    requires b1 + 77 <= b2 && m >= 8
    ensures b1 * m / 100 < b2 * m / 100
  {
    var d := b2 - b1;
    Distribute(b1, d, m);
    AtLeastHundred(d, m);
    HundredApart(b1 * m, b2 * m);
  }

  lemma Distribute(x: nat, d: nat, m: nat)
    ensures (x + d) * m == x * m + d * m
  {
  }

  lemma AtLeastHundred(d: nat, m: nat)
    requires d >= 77 && m >= 8
    ensures d * m >= 100
  {
    assert d * m >= 77 * m;
  }

  lemma HundredApart(x: nat, y: nat)
    requires x + 100 <= y
    ensures x / 100 < y / 100
  {
  }

  /** `2 << n` for every shift up to the highest octave. */
  const Shifts: seq<nat> := [2, 4, 8, 16, 32, 64, 128, 256, 512]

  lemma {:induction false} ShiftTable(n: nat)
    requires n <= MaxOctave
    ensures ShiftTwo(n) == Shifts[n]
  {
    if n > 0 {
      ShiftTable(n - 1);
    }
  }

  lemma DivMonotone(x: nat, y: nat)
    requires x <= y
    ensures x / 100 <= y / 100
  {
  }

  /**
   One octave up doubles the frequency, up to the one hertz the truncation
   can add.
   */
  lemma {:induction false} OctaveUp(l: Letter, a: Accidental, o: nat)
    requires Allowed(l, a)
    requires MinOctave <= o < MaxOctave
    ensures var lo, hi := Frequency(Tone(l, a, o)), Frequency(Tone(l, a, o + 1));
      hi == 2 * lo || hi == 2 * lo + 1
  {
    var b, m := BaseCentiHz(l, a), ShiftTwo(o);
    assert ShiftTwo(o + 1) == 2 * m;
    TwiceProduct(b, m);
    DoubleThenTruncate(b * m);
  }

  lemma TwiceProduct(b: nat, m: nat)
    ensures b * (2 * m) == 2 * (b * m)
  {
    assert b * (2 * m) == b * m + b * m;
  }

  /** Truncating twice a number to hundreds gives twice its truncation, or one more. */
  lemma DoubleThenTruncate(x: nat)
    ensures (2 * x) / 100 == 2 * (x / 100) || (2 * x) / 100 == 2 * (x / 100) + 1
  {
    var q, r := x / 100, x % 100;
    assert 2 * x == 100 * (2 * q) + 2 * r;
    if 2 * r >= 100 {
      assert 2 * x == 100 * (2 * q + 1) + (2 * r - 100);
    }
  }

  /** Every sounding pitch lies between 130 Hz (C2) and 15805 Hz (B8). */
  lemma {:induction false} FrequencyRange(p: Pitch)
    requires ValidPitch(p) && p.Tone?
    ensures 130 <= Frequency(p) <= 15805
  {
    BaseIsChromatic(p.letter, p.accidental);
    var b := BaseCentiHz(p.letter, p.accidental);
    var m := ShiftTwo(p.octave);
    ShiftTable(p.octave);
    assert 1635 * 8 <= b * m;
    assert b * m <= 3087 * 512 by {
      assert b <= 3087;
      assert b * m <= 3087 * m;
    }
    DivMonotone(1635 * 8, b * m);
    DivMonotone(b * m, 3087 * 512);
  }

  /** A product of centi-Hz that is a whole number of hertz or at least 0.04 Hz away from one. */
  predicate ClearOfRounding(x: nat) {
    x % 100 == 0 || 4 <= x % 100 <= 96
  }

  /**
   The exact product of a base constant and `2 << octave` is either a whole
   number of hertz or at least 0.04 Hz away from one. Off whole hertz,
   rounding the base to a double perturbs the product by far less than that,
   so the driver's `(int)` truncation of the double product equals the
   integer truncation computed by `Frequency`. The products that land on
   whole hertz come only from 24.50 and 27.50, and both are exact binary
   doubles, so their products are exact too; an inexact double just below a
   whole hertz would truncate one lower, and no base here is one.
   */
  lemma {:induction false} TruncationMargin(l: Letter, a: Accidental, o: nat)
    requires Allowed(l, a)
    requires MinOctave <= o <= MaxOctave
    ensures ClearOfRounding(BaseCentiHz(l, a) * ShiftTwo(o))
  {
    BaseIsChromatic(l, a);
    ShiftTable(o);
    var b := BaseCentiHz(l, a);
    assert b in {1635, 1732, 1835, 1945, 2060, 2183, 2312, 2450, 2596, 2750, 2914, 3087};
    MarginLow(b);
    MarginHigh(b);
    assert o in {2, 3, 4, 5, 6, 7, 8};
  }

  /** The margin for octaves 2 to 4. */
  lemma MarginLow(b: nat)
    requires b in {1635, 1732, 1835, 1945, 2060, 2183, 2312, 2450, 2596, 2750, 2914, 3087}
    ensures ClearOfRounding(b * 8) && ClearOfRounding(b * 16) && ClearOfRounding(b * 32)
  {
    if b == 1635 { assert b * 8 == 13080; }
    else if b == 1732 { assert b * 8 == 13856; }
    else if b == 1835 { assert b * 8 == 14680; }
    else if b == 1945 { assert b * 8 == 15560; }
    else if b == 2060 { assert b * 8 == 16480; }
    else if b == 2183 { assert b * 8 == 17464; }
    else if b == 2312 { assert b * 8 == 18496; }
    else if b == 2450 { assert b * 8 == 19600; }
    else if b == 2596 { assert b * 8 == 20768; }
    else if b == 2750 { assert b * 8 == 22000; }
    else if b == 2914 { assert b * 8 == 23312; }
    else { assert b * 8 == 24696; }
  }

  /** The margin for octaves 5 to 8. */
  lemma MarginHigh(b: nat)
    requires b in {1635, 1732, 1835, 1945, 2060, 2183, 2312, 2450, 2596, 2750, 2914, 3087}
    ensures ClearOfRounding(b * 64) && ClearOfRounding(b * 128)
    ensures ClearOfRounding(b * 256) && ClearOfRounding(b * 512)
  {
    if b == 1635 { assert b * 64 == 104640; }
    else if b == 1732 { assert b * 64 == 110848; }
    else if b == 1835 { assert b * 64 == 117440; }
    else if b == 1945 { assert b * 64 == 124480; }
    else if b == 2060 { assert b * 64 == 131840; }
    else if b == 2183 { assert b * 64 == 139712; }
    else if b == 2312 { assert b * 64 == 147968; }
    else if b == 2450 { assert b * 64 == 156800; }
    else if b == 2596 { assert b * 64 == 166144; }
    else if b == 2750 { assert b * 64 == 176000; }
    else if b == 2914 { assert b * 64 == 186496; }
    else { assert b * 64 == 197568; }
  }
}

=== FILE: playback.dfy ===
/**
 Which error `play_file` and `say` raise. Both spawn external processes
 (`aplay` for a sound file; `espeak` piped into `aplay` for speech), poll
 the event loop until every asynchronous operation has finished, and then
 pick one outcome from what happened. The processes, the pipe and the event
 loop are not modelled; their observable results are the parameters.
 */
module Playback {

  /** Result of spawning a process: started, or a GLib error message. */
  datatype Spawn = Spawned | SpawnFailed(message: string)

  /**
   How a spawned process ended. A failure carries the GLib error message,
   whether reading its standard error pipe succeeded, and what that pipe
   held.
   */
  datatype Exit = Succeeded | Failed(message: string, stderrRead: bool, stderr: string)

  /**
   How the call ends: it returns, raises a `RuntimeError` with a message,
   or re-raises an exception caught while polling (identified by a number).
   */
  datatype Outcome = Done | RuntimeError(message: string) | Reraised(exception: nat)

  /** Size of the stack buffer the standard error text is read into. */
  const StderrBuffer: nat := 4096

  const SpawnAplay := "Failed to spawn aplay: "
  const SpawnEspeak := "Failed to spawn espeak: "
  const PlayingFailed := "Playing file failed: "
  const SayingFailed := "Saying text failed: "

  /** The text a `%s` conversion prints for a character buffer: everything before the first NUL. */
  function CString(s: string): (r: string)
    ensures r <= s
    ensures '\0' !in r
    ensures |r| < |s| ==> s[|r|] == '\0'
  {
    if |s| == 0 || s[0] == '\0' then [] else [s[0]] + CString(s[1..])
  }

  /** What one read of the standard error pipe into the buffer obtains. */
  function StderrBytes(e: Exit): (b: string)
    requires e.Failed?
    ensures |b| <= StderrBuffer && b <= e.stderr
    ensures |e.stderr| <= StderrBuffer ==> b == e.stderr
  {
    if |e.stderr| <= StderrBuffer then e.stderr else e.stderr[..StderrBuffer]
  }

  /**
   The detail of a failed process's error: its standard error text when the
   read succeeded and obtained at least one byte, otherwise the GLib message.
   */
  function Detail(e: Exit): (r: string)
    requires e.Failed?
    ensures e.stderrRead && |StderrBytes(e)| > 0 ==>
      var b := StderrBytes(e);
      r <= b && '\0' !in r && (|r| < |b| ==> b[|r|] == '\0')
    ensures !(e.stderrRead && |StderrBytes(e)| > 0) ==> r == e.message
  {
    var b := StderrBytes(e);
    if e.stderrRead && |b| > 0 then CString(b) else e.message
  }

  /**
   `play_file(file)`: a spawn failure is reported first; then an exception
   caught while polling is re-raised, the last one when several were caught;
   then a failed `aplay` becomes a `RuntimeError`.
   */
  function PlayFile(spawn: Spawn, caught: seq<nat>, aplay: Exit): (r: Outcome)
    ensures r.Reraised? <==> spawn.Spawned? && |caught| > 0
    ensures r.Done? <==> spawn.Spawned? && |caught| == 0 && aplay.Succeeded?
    ensures r.RuntimeError? && spawn.Spawned? ==> r.message == PlayingFailed + Detail(aplay)
    ensures spawn.SpawnFailed? ==> r == RuntimeError(SpawnAplay + spawn.message)
  {
    if spawn.SpawnFailed? then RuntimeError(SpawnAplay + spawn.message)
    else if |caught| > 0 then Reraised(caught[|caught| - 1])
    else if aplay.Failed? then RuntimeError(PlayingFailed + Detail(aplay))
    else Done
  }

  /**
   `say(text)`: the `espeak` spawn is checked before the `aplay` spawn; then
   a caught exception wins; then a failed `aplay` is reported before a failed
   `espeak`. Whether the pipe splice between them succeeded is never looked at.
   */
  function Say(espeakSpawn: Spawn, aplaySpawn: Spawn, caught: seq<nat>,
               espeak: Exit, aplay: Exit, spliceOk: bool): (r: Outcome)
    ensures r.Done? <==> espeakSpawn.Spawned? && aplaySpawn.Spawned? && |caught| == 0
                         && espeak.Succeeded? && aplay.Succeeded?
    ensures r.Reraised? <==> espeakSpawn.Spawned? && aplaySpawn.Spawned? && |caught| > 0
    ensures espeakSpawn.SpawnFailed? ==> r == RuntimeError(SpawnEspeak + espeakSpawn.message)
    ensures espeakSpawn.Spawned? && aplaySpawn.SpawnFailed? ==> r == RuntimeError(SpawnAplay + aplaySpawn.message)
    ensures espeakSpawn.Spawned? && aplaySpawn.Spawned? && |caught| == 0 && aplay.Failed?
      ==> r == RuntimeError(SayingFailed + Detail(aplay))
    ensures espeakSpawn.Spawned? && aplaySpawn.Spawned? && |caught| == 0 && aplay.Succeeded? && espeak.Failed?
      ==> r == RuntimeError(SayingFailed + Detail(espeak))
  {
    if espeakSpawn.SpawnFailed? then RuntimeError(SpawnEspeak + espeakSpawn.message)
    else if aplaySpawn.SpawnFailed? then RuntimeError(SpawnAplay + aplaySpawn.message)
    else if |caught| > 0 then Reraised(caught[|caught| - 1])
    else if aplay.Failed? then RuntimeError(SayingFailed + Detail(aplay))
    else if espeak.Failed? then RuntimeError(SayingFailed + Detail(espeak))
    else Done
  }

  /** Once both processes are running, the last exception caught while polling is the one raised, whatever the processes did. */
  lemma CaughtWins(caught: seq<nat>, e1: Exit, a1: Exit, s1: bool, e2: Exit, a2: Exit, s2: bool)
    requires |caught| > 0
    ensures Say(Spawned, Spawned, caught, e1, a1, s1) == Say(Spawned, Spawned, caught, e2, a2, s2)
      == Reraised(caught[|caught| - 1])
    ensures PlayFile(Spawned, caught, a1) == PlayFile(Spawned, caught, a2) == Reraised(caught[|caught| - 1])
  {
  }

  /** The outcome of the splice between `espeak` and `aplay` never changes the result of `say`. */
  lemma SpliceIgnored(es: Spawn, aplaySpawn: Spawn, caught: seq<nat>, espeak: Exit, aplay: Exit)
    ensures Say(es, aplaySpawn, caught, espeak, aplay, true) == Say(es, aplaySpawn, caught, espeak, aplay, false)
  {
  }

  /** When both processes fail, the error reported is the one of `aplay`. */
  lemma AplayBeforeEspeak(espeak: Exit, aplay: Exit, spliceOk: bool)
    requires espeak.Failed? && aplay.Failed?
    ensures Say(Spawned, Spawned, [], espeak, aplay, spliceOk) == RuntimeError(SayingFailed + Detail(aplay))
  {
  }

  /** A failure to spawn `espeak` is reported before anything about `aplay`. */
  lemma EspeakSpawnFirst(m: string, aplaySpawn: Spawn, caught: seq<nat>, espeak: Exit, aplay: Exit, spliceOk: bool)
    ensures Say(SpawnFailed(m), aplaySpawn, caught, espeak, aplay, spliceOk) == RuntimeError(SpawnEspeak + m)
  {
  }

  /**
   When `espeak` succeeds, `say` reports exactly what `play_file` reports
   for the same `aplay`, with its own message prefix for a failed playback.
   */
  lemma {:induction false} SayLikePlayFile(aplaySpawn: Spawn, caught: seq<nat>, aplay: Exit, spliceOk: bool)
    ensures var s := Say(Spawned, aplaySpawn, caught, Succeeded, aplay, spliceOk);
      var p := PlayFile(aplaySpawn, caught, aplay);
      if aplaySpawn.Spawned? && |caught| == 0 && aplay.Failed? then
        p.RuntimeError? && s == RuntimeError(SayingFailed + p.message[|PlayingFailed|..])
      else s == p
  {
    if aplaySpawn.Spawned? && |caught| == 0 && aplay.Failed? {
      var p := PlayFile(aplaySpawn, caught, aplay);
      assert p.message[|PlayingFailed|..] == Detail(aplay);
    }
  }

  /**
   The standard error text replaces the GLib message exactly when some bytes
   were read, and then the message shows those bytes up to the first NUL.
   */
  lemma {:induction false} StderrPreferred(m: string, stderr: string)
    requires 0 < |stderr| <= StderrBuffer && '\0' !in stderr
    ensures Detail(Failed(m, true, stderr)) == stderr
    ensures Detail(Failed(m, false, stderr)) == m
    ensures Detail(Failed(m, true, [])) == m
  {
    CStringPlain(stderr);
  }

  lemma CStringPlain(s: string)
    requires '\0' !in s
    ensures CString(s) == s
  {
  }
}

=== FILE: speaker.dfy ===
/**
 The tone side of the EV3 `Speaker`: `beep`, and `play_notes` which plays
 one note token after another through the note parser.

 Each operation is a pure function from its arguments, plus a description
 of what the outside world does to it, to a `Run`: the trace of device
 writes and delays it issues and how the call ends. The outside world can
 raise an exception (a keyboard interrupt, say) inside any delay; it is
 given as the position of that delay among all delays the call makes.
 */
module Speaker {
  import opened Notes
  import opened NoteParser
  import opened ToneTrace

  /** One element of the `notes` iterable. */
  datatype Item =
    | Token(text: string)
    /** an element that is not a string, or whose fetching raised */
    | Unreadable

  /** Exceptions the speaker calls propagate. */
  datatype Error =
    | ValueError(reason: ParseError)
    /** an exception raised inside a delay, re-raised unchanged */
    | Interrupted
    /** the exception raised while fetching or converting a `notes` element */
    | ItemError
    /** the first device write of `beep` failed */
    | OSError

  /**
   How a call ends. `Undefined` is a token with fraction 0: the driver then
   divides by zero, which C leaves undefined, and nothing is claimed past it.
   */
  datatype Outcome = Returned | Raised(error: Error) | Undefined

  datatype Run = Run(trace: seq<Event>, outcome: Outcome)

  /** An exception raised inside the delay with the given index, or none. */
  datatype Interrupt = NoInterrupt | DuringDelay(index: nat)

  predicate Fires(intr: Interrupt, i: nat) {
    intr.DuringDelay? && intr.index == i
  }

  predicate Silenced(t: seq<Event>) {
    |t| > 0 && t[|t| - 1] == SetTone(0)
  }

  /**
   `beep`: sound `freq`; when `ms` is not negative wait `ms` and silence the
   device again, also when the wait is interrupted. A failure of the first
   write is an `OSError` and nothing further is done; a negative `ms`
   returns at once with the tone still sounding.
   */
  function Beep(freq: int, ms: int, writeOk: bool, intr: Interrupt): (r: Run)
    ensures |r.trace| > 0 && r.trace[0] == SetTone(freq)
    ensures r.outcome == Raised(OSError) <==> !writeOk
    ensures r.outcome == Raised(Interrupted) <==> writeOk && ms >= 0 && Fires(intr, 0)
    ensures r.outcome.Returned? || r.outcome.Raised?
    ensures writeOk && ms >= 0 ==> Silenced(r.trace) && TotalDelay(r.trace) == ms
    ensures !(writeOk && ms >= 0) ==> r.trace == [SetTone(freq)]
  {
    if !writeOk then
      Run([SetTone(freq)], Raised(OSError))
    else if ms < 0 then
      Run([SetTone(freq)], Returned)
    else
      var t := [SetTone(freq), Delay(ms), SetTone(0)];
      assert TotalDelay(t[2..]) == 0 by {
        assert t[2..][1..] == [];
      }
      assert TotalDelay(t[1..]) == ms by {
        assert t[1..][1..] == t[2..];
      }
      Run(t, if Fires(intr, 0) then Raised(Interrupted) else Returned)
  }

  /** A beep of `ms` milliseconds is a tied note of that length followed by silence. */
  lemma BeepIsTiedNote(freq: nat, ms: nat, intr: Interrupt)
    ensures Beep(freq, ms, true, intr).trace == NoteEvents(freq, ms, false) + [SetTone(0)]
  {
  }

  /** An interrupt during a beep changes how it ends, not what it does to the device. */
  lemma BeepInterruptKeepsTrace(freq: int, ms: int, writeOk: bool, k: nat)
    ensures Beep(freq, ms, writeOk, DuringDelay(k)).trace == Beep(freq, ms, writeOk, NoInterrupt).trace
  {
  }

  /** A negative duration leaves the tone sounding; otherwise the device ends silent. */
  lemma {:induction false} BeepLeavesTone(freq: int, ms: int, intr: Interrupt, before: int)
    ensures ToneAfter(Beep(freq, ms, true, intr).trace, before) == if ms < 0 then freq else 0
  {
  }

  /** The length of a parsed note at a whole-note length. */
  function Length(n: Note, whole: nat): nat
    requires n.fraction > 0
  {
    NoteMs(whole, n.fraction, n.dotted)
  }

  /**
   What the driver makes of one element before it touches the device: a
   tone to play with its length and whether it is released, or how the call
   ends at this element.
   */
  datatype Step = Play(hz: nat, ms: nat, release: bool) | Stop(outcome: Outcome)

  /**
   Fetch and parse one element and compute its tone: an unreadable element
   and a refused token raise, a fraction of 0 reaches the undefined
   division, and any other token is played at its pitch's frequency and its
   length, released unless tied.
   */
  function Prepare(it: Item, whole: nat): (s: Step)
    ensures s.Play? <==> it.Token? && Parse(it.text).Ok? && Parse(it.text).note.fraction > 0
    ensures s.Play? ==> var n := Parse(it.text).note;
      s == Play(Frequency(n.pitch), Length(n, whole), !n.tied)
    ensures s.Stop? ==> s.outcome != Returned && s.outcome != Raised(Interrupted)
    ensures it.Token? && Parse(it.text).Err? ==> s == Stop(Raised(ValueError(Parse(it.text).error)))
    ensures it.Unreadable? ==> s == Stop(Raised(ItemError))
    ensures it.Token? && Parse(it.text).Ok? && Parse(it.text).note.fraction == 0 ==> s == Stop(Undefined)
  {
    if it.Unreadable? then Stop(Raised(ItemError))
    else match Parse(it.text)
      case Err(e) => Stop(Raised(ValueError(e)))
      case Ok(n) => if n.fraction == 0 then Stop(Undefined) else Play(Frequency(n.pitch), Length(n, whole), !n.tied)
  }

  function Steps(items: seq<Item>, whole: nat): seq<Step>
  {
    seq(|items|, i requires 0 <= i < |items| => Prepare(items[i], whole))
  }

  /**
   One tone as the driver plays it: write its frequency, then either wait
   seven eighths, silence, wait one eighth, or (tied) wait the whole
   length. `done` counts the delays made before this note; an interrupt in
   one of this note's delays ends it there.
   */
  function PlayTone(f: nat, d: nat, release: bool, intr: Interrupt, done: nat): (r: Run)
    ensures r.outcome == Returned || r.outcome == Raised(Interrupted)
    ensures |r.trace| > 0 && r.trace[0] == SetTone(f)
  {
    if release then
      if Fires(intr, done) then
        Run([SetTone(f), Delay(HoldMs(d))], Raised(Interrupted))
      else if Fires(intr, done + 1) then
        Run([SetTone(f), Delay(HoldMs(d)), SetTone(0), Delay(GapMs(d))], Raised(Interrupted))
      else
        Run([SetTone(f), Delay(HoldMs(d)), SetTone(0), Delay(GapMs(d))], Returned)
    else if Fires(intr, done) then
      Run([SetTone(f), Delay(d)], Raised(Interrupted))
    else
      Run([SetTone(f), Delay(d)], Returned)
  }

  /**
   The loop of `play_notes` over the remaining elements, before the final
   silencing write: play each tone in turn and stop at the first exception
   or undefined division.
   */
  function PlaySteps(steps: seq<Step>, intr: Interrupt, done: nat): Run
    decreases |steps|
  {
    if |steps| == 0 then
      Run([], Returned)
    else if steps[0].Stop? then
      Run([], steps[0].outcome)
    else
      var first := PlayTone(steps[0].hz, steps[0].ms, steps[0].release, intr, done);
      if first.outcome != Returned then
        first
      else
        var rest := PlaySteps(steps[1..], intr, done + DelayCount(first.trace));
        Run(first.trace + rest.trace, rest.outcome)
  }

  /**
   The loop returns or re-raises an interrupt when every element can be
   played; any other ending is the ending of one of the elements.
   */
  lemma {:induction false} PlayStepsEnding(steps: seq<Step>, intr: Interrupt, done: nat)
    ensures var r := PlaySteps(steps, intr, done);
      ((forall i | 0 <= i < |steps| :: steps[i].Play?) ==> r.outcome == Returned || r.outcome == Raised(Interrupted))
      && (r.outcome != Returned && r.outcome != Raised(Interrupted) ==> Stop(r.outcome) in steps)
    decreases |steps|
  {
    if |steps| > 0 && steps[0].Play? {
      var first := PlayTone(steps[0].hz, steps[0].ms, steps[0].release, intr, done);
      if first.outcome == Returned {
        PlayStepsEnding(steps[1..], intr, done + DelayCount(first.trace));
        assert forall i | 0 <= i < |steps| - 1 :: steps[1..][i] == steps[i + 1];
      }
    }
  }

  /**
   `play_notes(notes, tempo)`: play the elements with a whole note of
   240000 / tempo ms, then silence the device, both after the last note and
   when an exception stops the loop.
   */
  function PlayNotes(items: seq<Item>, tempo: int, intr: Interrupt): (r: Run)
    requires tempo > 0
    ensures r.outcome != Undefined ==> Silenced(r.trace)
  {
    var body := PlaySteps(Steps(items, WholeNoteMs(tempo)), intr, 0);
    if body.outcome == Undefined then body else Run(body.trace + [SetTone(0)], body.outcome)
  }

  // ---------------------------------------------------------------------
  // Reference behaviour without interrupts

  /** The events of tones played one after another, each with its declarative shape. */
  function Score(steps: seq<Step>): seq<Event>
    requires forall i | 0 <= i < |steps| :: steps[i].Play?
  {
    if |steps| == 0 then [] else NoteEvents(steps[0].hz, steps[0].ms, steps[0].release) + Score(steps[1..])
  }

  /** Without an interrupt a tone plays exactly its declarative events. */
  lemma PlayToneUninterrupted(f: nat, d: nat, release: bool, done: nat)
    ensures PlayTone(f, d, release, NoInterrupt, done) == Run(NoteEvents(f, d, release), Returned)
  {
  }

  /**
   Without interrupts, `play_notes` plays every element before the first one
   it cannot play, each in full; it then silences the device and returns, or
   raises that element's error, except after a fraction of 0.
   */
  lemma {:induction false} PlayNotesUninterrupted(items: seq<Item>, tempo: int, i: nat)
    requires tempo > 0
    requires i <= |items|
    requires forall j | 0 <= j < i :: Prepare(items[j], WholeNoteMs(tempo)).Play?
    requires i < |items| ==> Prepare(items[i], WholeNoteMs(tempo)).Stop?
    ensures var r := PlayNotes(items, tempo, NoInterrupt);
      var played := Score(Steps(items, WholeNoteMs(tempo))[..i]);
      if i == |items| then r == Run(played + [SetTone(0)], Returned)
      else
        var stop := Prepare(items[i], WholeNoteMs(tempo)).outcome;
        if stop == Undefined then r == Run(played, Undefined)
        else r == Run(played + [SetTone(0)], stop)
  {
    var body := PlayStepsUninterrupted(Steps(items, WholeNoteMs(tempo)), 0, i);
  }

  lemma {:induction false} PlayStepsUninterrupted(steps: seq<Step>, done: nat, i: nat)
    returns (body: Run)
    requires i <= |steps|
    requires forall j | 0 <= j < i :: steps[j].Play?
    requires i < |steps| ==> steps[i].Stop?
    ensures body == PlaySteps(steps, NoInterrupt, done)
    ensures body.trace == Score(steps[..i])
    ensures body.outcome == if i == |steps| then Returned else steps[i].outcome
  {
    body := PlaySteps(steps, NoInterrupt, done);
    if |steps| == 0 || i == 0 {
      assert steps[..i] == [];
    } else {
      var s := steps[0];
      PlayToneUninterrupted(s.hz, s.ms, s.release, done);
      var first := PlayTone(s.hz, s.ms, s.release, NoInterrupt, done);
      var rest := PlayStepsUninterrupted(steps[1..], done + DelayCount(first.trace), i - 1);
      ScorePrefix(steps, i);
      assert body == Run(first.trace + rest.trace, rest.outcome);
    }
  }

  /** The score of a nonempty prefix is its first note's events followed by the score of the rest. */
  lemma ScorePrefix(steps: seq<Step>, i: nat)
    requires 0 < i <= |steps|
    requires forall j | 0 <= j < i :: steps[j].Play?
    ensures Score(steps[..i]) == NoteEvents(steps[0].hz, steps[0].ms, steps[0].release) + Score(steps[1..][..i - 1])
  {
    assert steps[1..][..i - 1] == steps[..i][1..];
    assert steps[..i][0] == steps[0];
  }

  // ---------------------------------------------------------------------
  // Interrupts are cut-off points

  /** An interrupt in one of a tone's delays cuts that tone's events there. */
  lemma {:induction false} PlayToneInterrupted(f: nat, d: nat, release: bool, k: nat, done: nat)
    ensures var full := NoteEvents(f, d, release);
      var r := PlayTone(f, d, release, DuringDelay(k), done);
      if done <= k < done + DelayCount(full) then r == Run(Cut(full, k - done), Raised(Interrupted))
      else r == Run(full, Returned)
  {
    var full := NoteEvents(f, d, release);
    NoteTiming(f, d, release, 0);
    if release {
      assert Cut(full, 0) == [SetTone(f), Delay(HoldMs(d))] by {
        assert full[1..][0] == Delay(HoldMs(d));
      }
      assert Cut(full, 1) == full by {
        assert full[3..] == [Delay(GapMs(d))];
        assert Cut(full[3..], 0) == full[3..];
        assert full[2..][1..] == full[3..];
        assert Cut(full[2..], 0) == full[2..];
        assert full[1..][1..] == full[2..];
        assert Cut(full[1..], 1) == full[1..];
      }
    } else {
      assert Cut(full, 0) == full by {
        assert full[1..] == [Delay(d)];
      }
    }
  }

  /**
   The elements' loop under an interrupt is the uninterrupted loop cut at
   the interrupted delay, when the loop gets that far, and otherwise the
   uninterrupted loop itself.
   */
  lemma {:induction false} PlayStepsInterrupted(steps: seq<Step>, k: nat, done: nat)
    ensures CutRule(PlaySteps(steps, NoInterrupt, done), PlaySteps(steps, DuringDelay(k), done), k, done)
    decreases |steps|
  {
    if |steps| == 0 || steps[0].Stop? {
      assert PlaySteps(steps, DuringDelay(k), done) == PlaySteps(steps, NoInterrupt, done);
    } else {
      var s := steps[0];
      PlayToneInterrupted(s.hz, s.ms, s.release, k, done);
      PlayToneUninterrupted(s.hz, s.ms, s.release, done);
      var first0 := PlayTone(s.hz, s.ms, s.release, NoInterrupt, done);
      var first := PlayTone(s.hz, s.ms, s.release, DuringDelay(k), done);
      var m := DelayCount(first0.trace);
      PlayStepsInterrupted(steps[1..], k, done + m);
      var rest0 := PlaySteps(steps[1..], NoInterrupt, done + m);
      var rest := PlaySteps(steps[1..], DuringDelay(k), done + m);
      SequenceInterrupted(first0, first, rest0, rest, k, done);
      PlayStepsUnfold(steps, NoInterrupt, done);
      PlayStepsUnfold(steps, DuringDelay(k), done);
    }
  }

  /**
   The cut rule for a run `r` under an interrupt in delay `k`, against the
   uninterrupted run `full` whose delays are numbered from `done`: `r` is
   `full` cut after that delay when `full` makes it, and `full` otherwise.
   */
  predicate CutRule(full: Run, r: Run, k: nat, done: nat) {
    if done <= k < done + DelayCount(full.trace) then r == Run(Cut(full.trace, k - done), Raised(Interrupted))
    else r == full
  }

  /** The loop over a list that starts with a tone: play it, then, if it returned, the rest. */
  lemma PlayStepsUnfold(steps: seq<Step>, intr: Interrupt, done: nat)
    requires |steps| > 0 && steps[0].Play?
    ensures var first := PlayTone(steps[0].hz, steps[0].ms, steps[0].release, intr, done);
      var rest := PlaySteps(steps[1..], intr, done + DelayCount(first.trace));
      PlaySteps(steps, intr, done) == if first.outcome != Returned then first else Run(first.trace + rest.trace, rest.outcome)
  {
  }

  /**
   One note followed by the rest of the loop: when the note and the rest each
   obey the cut rule, so does their sequence.
   */
  lemma SequenceInterrupted(first0: Run, first: Run, rest0: Run, rest: Run, k: nat, done: nat)
    requires first0.outcome == Returned
    requires CutRule(first0, first, k, done)
    requires CutRule(rest0, rest, k, done + DelayCount(first0.trace))
    ensures CutRule(Run(first0.trace + rest0.trace, rest0.outcome),
                    if first.outcome != Returned then first else Run(first.trace + rest.trace, rest.outcome), k, done)
  {
    var m := DelayCount(first0.trace);
    DelayCountConcat(first0.trace, rest0.trace);
    if done <= k < done + m {
      CutWithin(first0.trace, rest0.trace, k - done);
    } else if done + m <= k {
      CutBeyond(first0.trace, rest0.trace, k - done);
    }
  }

  /**
   An exception raised inside the k-th delay of `play_notes` cuts the
   uninterrupted trace right after that delay and appends the silencing
   write; the exception is re-raised. When the call makes no k-th delay
   the interrupt has no effect.
   */
  lemma {:induction false} PlayNotesInterrupted(items: seq<Item>, tempo: int, k: nat)
    requires tempo > 0
    ensures var full := PlayNotes(items, tempo, NoInterrupt);
      var r := PlayNotes(items, tempo, DuringDelay(k));
      if k < DelayCount(full.trace) then r == Run(Cut(full.trace, k) + [SetTone(0)], Raised(Interrupted))
      else r == full
  {
    var steps := Steps(items, WholeNoteMs(tempo));
    var body0 := PlaySteps(steps, NoInterrupt, 0);
    var body := PlaySteps(steps, DuringDelay(k), 0);
    PlayStepsInterrupted(steps, k, 0);
    var full := PlayNotes(items, tempo, NoInterrupt);
    assert DelayCount(full.trace) == DelayCount(body0.trace) by {
      if body0.outcome != Undefined {
        DelayCountConcat(body0.trace, [SetTone(0)]);
        assert DelayCount([SetTone(0)]) == 0;
      }
    }
    if k < DelayCount(body0.trace) {
      assert body == Run(Cut(body0.trace, k), Raised(Interrupted));
      assert Cut(full.trace, k) == Cut(body0.trace, k) by {
        if body0.outcome != Undefined {
          CutConcat(body0.trace, [SetTone(0)], k);
        }
      }
    } else {
      assert body == body0;
    }
  }

  /** Whatever happens, except a division by zero, the device is silent when `play_notes` ends. */
  lemma PlayNotesSilent(items: seq<Item>, tempo: int, intr: Interrupt, before: int)
    requires tempo > 0
    ensures PlayNotes(items, tempo, intr).outcome != Undefined
      ==> ToneAfter(PlayNotes(items, tempo, intr).trace, before) == 0
  {
  }

  /**
   The three-note example: a quarter C4, an eighth rest and a tied quarter A4
   at tempo 120. The rest still writes 0, waits, writes 0 and waits; the tied
   note has no release, and the final write silences it.
   */
  lemma ThreeNoteExample(items: seq<Item>)
    requires items == [Token("C4/4"), Token("R/8"), Token("A4/4_")]
    ensures PlayNotes(items, 120, NoInterrupt)
      == Run([SetTone(523), Delay(437), SetTone(0), Delay(62),
              SetTone(0), Delay(218), SetTone(0), Delay(31),
              SetTone(880), Delay(500), SetTone(0)], Returned)
  {
    ExampleC4();
    ExampleRest();
    ExampleA4();
    StepsOfThree(items[0], items[1], items[2], 2000);
    PlayExampleSteps(items, [Play(523, 500, true), Play(0, 250, true), Play(880, 500, false)]);
  }

  lemma StepsOfThree(a: Item, b: Item, c: Item, whole: nat)
    ensures Steps([a, b, c], whole) == [Prepare(a, whole), Prepare(b, whole), Prepare(c, whole)]
  {
  }

  lemma PlayExampleSteps(items: seq<Item>, steps: seq<Step>)
    requires steps == [Play(523, 500, true), Play(0, 250, true), Play(880, 500, false)]
    requires Steps(items, 2000) == steps
    ensures PlayNotes(items, 120, NoInterrupt)
      == Run([SetTone(523), Delay(437), SetTone(0), Delay(62),
              SetTone(0), Delay(218), SetTone(0), Delay(31),
              SetTone(880), Delay(500), SetTone(0)], Returned)
  {
    assert WholeNoteMs(120) == 2000;
    assert |items| == 3;
    assert Steps(items, 2000)[..3] == steps;
    assert forall j | 0 <= j < 3 :: Prepare(items[j], 2000) == steps[j];
    ExampleScore(steps);
    PlayNotesUninterrupted(items, 120, 3);
  }

  /** The example's elements are a released 523 Hz, a released rest and a tied 880 Hz, 500 ms each. */
  lemma ExampleC4()
    ensures Prepare(Token("C4/4"), 2000) == Play(523, 500, true)
  {
    var n := Note(Tone(C, Natural, 4), 4, false, false);
    PreparedNote(n, 2000);
    assert Format(n) == "C4/4";
    ShiftTable(4);
    assert Frequency(n.pitch) == 523;
  }

  lemma ExampleRest()
    ensures Prepare(Token("R/8"), 2000) == Play(0, 250, true)
  {
    var n := Note(Rest, 8, false, false);
    PreparedNote(n, 2000);
    assert Format(n) == "R/8";
  }

  lemma ExampleA4()
    ensures Prepare(Token("A4/4_"), 2000) == Play(880, 500, false)
  {
    var n := Note(Tone(A, Natural, 4), 4, false, true);
    PreparedNote(n, 2000);
    assert Format(n) == "A4/4_";
    ShiftTable(4);
    assert Frequency(n.pitch) == 880;
  }

  lemma PreparedNote(n: Note, whole: nat)
    requires ValidNote(n) && n.fraction > 0
    ensures Prepare(Token(Format(n)), whole) == Play(Frequency(n.pitch), Length(n, whole), !n.tied)
  {
    FormatParses(n);
  }

  lemma ExampleScore(steps: seq<Step>)
    requires steps == [Play(523, 500, true), Play(0, 250, true), Play(880, 500, false)]
    ensures Score(steps) == [SetTone(523), Delay(437), SetTone(0), Delay(62),
                             SetTone(0), Delay(218), SetTone(0), Delay(31),
                             SetTone(880), Delay(500)]
  {
    var e0 := [SetTone(523), Delay(437), SetTone(0), Delay(62)];
    var e1 := [SetTone(0), Delay(218), SetTone(0), Delay(31)];
    var e2 := [SetTone(880), Delay(500)];
    var s1, s2 := steps[1..], steps[2..];
    assert s1[1..] == s2 && s2[1..] == [];
    assert Score(s2) == e2 + Score([]);
    assert Score(s1) == e1 + e2;
    assert Score(steps) == e0 + (e1 + e2);
  }
}

=== FILE: tone_trace.dfy ===
/**
 What the speaker driver does to the outside world while a note or a beep
 plays, as a trace of events: a write of a tone frequency to the beep device
 (0 silences it) and a blocking delay of some milliseconds. This module also
 holds the integer timing rules of a note and the "cut" of a trace at an
 interrupted delay.
 */
module ToneTrace {

  datatype Event = SetTone(hz: int) | Delay(ms: int)

  /** The number of delays in a trace. */
  function DelayCount(t: seq<Event>): (n: nat)
    ensures n <= |t|
  {
    if |t| == 0 then 0 else (if t[0].Delay? then 1 else 0) + DelayCount(t[1..])
  }

  /** The total time a trace spends in delays. */
  function TotalDelay(t: seq<Event>): int {
    if |t| == 0 then 0 else (if t[0].Delay? then t[0].ms else 0) + TotalDelay(t[1..])
  }

  /** The frequency sounding after a trace, given the one sounding before it. */
  function ToneAfter(t: seq<Event>, before: int): (hz: int)
    ensures (forall i | 0 <= i < |t| :: t[i].Delay?) ==> hz == before
    ensures |t| > 0 && t[|t| - 1].SetTone? ==> hz == t[|t| - 1].hz
  {
    if |t| == 0 then before
    else if t[|t| - 1].SetTone? then t[|t| - 1].hz
    else ToneAfter(t[..|t| - 1], before)
  }

  /**
   The events issued up to and including the k-th delay (counting from 0),
   where an exception raised inside that delay stops the trace; the whole
   trace when it has no k-th delay.
   */
  function Cut(t: seq<Event>, k: nat): seq<Event> {
    if |t| == 0 then []
    else if t[0].Delay? && k == 0 then [t[0]]
    else [t[0]] + Cut(t[1..], if t[0].Delay? then k - 1 else k)
  }

  /**
   A cut is a prefix of the trace that stops right after a delay holding
   exactly k + 1 delays, or the whole trace when it has too few.
   */
  lemma {:induction false} CutIsPrefix(t: seq<Event>, k: nat)
    ensures Cut(t, k) <= t
    ensures k < DelayCount(t) ==> DelayCount(Cut(t, k)) == k + 1 && Cut(t, k)[|Cut(t, k)| - 1].Delay?
    ensures k >= DelayCount(t) ==> Cut(t, k) == t
  {
    if |t| > 0 && !(t[0].Delay? && k == 0) {
      var k' := if t[0].Delay? then k - 1 else k;
      CutIsPrefix(t[1..], k');
      var c := Cut(t, k);
      assert c == [t[0]] + Cut(t[1..], k');
      assert c[1..] == Cut(t[1..], k');
      if k < DelayCount(t) {
        assert c[|c| - 1] == Cut(t[1..], k')[|Cut(t[1..], k')| - 1];
      }
      if k >= DelayCount(t) {
        assert t == [t[0]] + t[1..];
      }
    } else if |t| > 0 {
      assert DelayCount([t[0]]) == 1 + DelayCount([t[0]][1..]);
    }
  }

  lemma {:induction false} DelayCountConcat(a: seq<Event>, b: seq<Event>)
    ensures DelayCount(a + b) == DelayCount(a) + DelayCount(b)
  {
    if |a| > 0 {
      assert (a + b)[1..] == a[1..] + b;
      DelayCountConcat(a[1..], b);
    } else {
      assert a + b == b;
    }
  }

  /** Cutting a concatenation cuts the part in which the k-th delay falls. */
  lemma {:induction false} CutConcat(a: seq<Event>, b: seq<Event>, k: nat)
    ensures Cut(a + b, k) == if k < DelayCount(a) then Cut(a, k) else a + Cut(b, k - DelayCount(a))
  {
    if k < DelayCount(a) {
      CutWithin(a, b, k);
    } else {
      CutBeyond(a, b, k);
    }
  }

  lemma {:induction false} CutWithin(a: seq<Event>, b: seq<Event>, k: nat)
    requires k < DelayCount(a)
    ensures Cut(a + b, k) == Cut(a, k)
  {
    var ab := a + b;
    assert ab[0] == a[0];
    assert ab[1..] == a[1..] + b;
    if !(a[0].Delay? && k == 0) {
      var k' := if a[0].Delay? then k - 1 else k;
      assert DelayCount(a) == (if a[0].Delay? then 1 else 0) + DelayCount(a[1..]);
      CutWithin(a[1..], b, k');
    }
  }

  lemma {:induction false} CutBeyond(a: seq<Event>, b: seq<Event>, k: nat)
    requires DelayCount(a) <= k
    ensures Cut(a + b, k) == a + Cut(b, k - DelayCount(a))
  {
    if |a| == 0 {
      assert a + b == b;
    } else {
      var ab := a + b;
      var rest := a[1..];
      assert ab[0] == a[0];
      assert ab[1..] == rest + b;
      var d := if a[0].Delay? then 1 else 0;
      assert DelayCount(a) == d + DelayCount(rest);
      var k': nat := k - d;
      assert !(a[0].Delay? && k == 0);
      assert Cut(ab, k) == [a[0]] + Cut(rest + b, k');
      CutBeyond(rest, b, k');
      var j: nat := k - DelayCount(a);
      assert k' - DelayCount(rest) == j;
      assert Cut(rest + b, k') == rest + Cut(b, j);
      assert a == [a[0]] + rest;
      assert [a[0]] + (rest + Cut(b, j)) == a + Cut(b, j);
    }
  }

  // ---------------------------------------------------------------------
  // Timing

  /** Milliseconds in four beats of a minute at one beat per minute: 4 * 60 * 1000. */
  const WholeNoteAtOneBpm: nat := 4 * 60 * 1000

  /** Length of a whole note at the given tempo (quarter notes per minute), truncated. */
  function WholeNoteMs(tempo: int): (d: nat)
    requires tempo > 0
    ensures d * tempo <= WholeNoteAtOneBpm < (d + 1) * tempo
  {
    WholeNoteAtOneBpm / tempo
  }

  /** A dotted length: one and a half times d, truncated. */
  function Dotted(d: nat): (r: nat)
    ensures d <= r
    ensures 2 * r <= 3 * d < 2 * r + 2
  {
    3 * d / 2
  }

  /** Length of one note: the whole note divided by the fraction, then dotted if asked. */
  function NoteMs(whole: nat, fraction: nat, dotted: bool): (d: nat)
    requires fraction > 0
    ensures !dotted ==> d * fraction <= whole < (d + 1) * fraction
    ensures dotted ==> whole / fraction <= d
    ensures dotted ==> 2 * d <= 3 * (whole / fraction) < 2 * d + 2
  {
    var base := whole / fraction;
    if dotted then Dotted(base) else base
  }

  /** Sounding part of a released note: seven eighths, truncated. */
  function HoldMs(d: nat): nat {
    7 * d / 8
  }

  /** Silent release gap of a note: one eighth, truncated. */
  function GapMs(d: nat): nat {
    d / 8
  }

  /**
   The events of one note at frequency f and length d: a released note
   sounds for seven eighths and is silent for one eighth; a tied note sounds
   for all of d.
   */
  function NoteEvents(f: nat, d: nat, release: bool): (t: seq<Event>)
    ensures |t| > 0 && t[0] == SetTone(f)
    ensures |t| == if release then 4 else 2
    ensures release ==> t[1].Delay? && 8 * t[1].ms <= 7 * d < 8 * t[1].ms + 8
    ensures release ==> t[2] == SetTone(0)
    ensures release ==> t[3].Delay? && 8 * t[3].ms <= d < 8 * t[3].ms + 8
    ensures !release ==> t[1] == Delay(d)
  {
    if release then [SetTone(f), Delay(HoldMs(d)), SetTone(0), Delay(GapMs(d))]
    else [SetTone(f), Delay(d)]
  }

  /**
   A released note takes d milliseconds, or one less when d is not a
   multiple of 8 (both parts are truncated), and leaves the device silent;
   a tied note takes exactly d and leaves its tone sounding.
   */
  lemma NoteTiming(f: nat, d: nat, release: bool, before: int)
    ensures TotalDelay(NoteEvents(f, d, release))
      == if release && d % 8 != 0 then d - 1 else d
    ensures ToneAfter(NoteEvents(f, d, release), before) == if release then 0 else f
    ensures DelayCount(NoteEvents(f, d, release)) == if release then 2 else 1
  {
    var t := NoteEvents(f, d, release);
    if release {
      ReleasedSplit(d);
      var t1, t2, t3 := t[1..], t[2..], t[3..];
      assert t2 == t1[1..] && t3 == t2[1..] && t3[1..] == [];
      assert TotalDelay(t3) == GapMs(d) && DelayCount(t3) == 1;
      assert TotalDelay(t2) == GapMs(d) && DelayCount(t2) == 1;
      assert TotalDelay(t1) == HoldMs(d) + GapMs(d) && DelayCount(t1) == 2;
      assert ToneAfter(t, before) == ToneAfter(t[..3], before);
    } else {
      var t1 := t[1..];
      assert t1[1..] == [];
      assert TotalDelay(t1) == d && DelayCount(t1) == 1;
      assert ToneAfter(t, before) == ToneAfter(t[..1], before);
    }
  }

  /** Seven eighths and one eighth, both truncated, add up to d less at most one. */
  lemma ReleasedSplit(d: nat)
    ensures HoldMs(d) + GapMs(d) == if d % 8 != 0 then d - 1 else d
  {
    var q, r := d / 8, d % 8;
    assert d == 8 * q + r;
    assert 7 * d == 8 * (7 * q) + 7 * r;
    assert HoldMs(d) == 7 * q + (7 * r) / 8;
  }

  /** At the default tempo of 120, a quarter note lasts 500 ms and a dotted eighth 375 ms. */
  lemma DefaultTempo()
    ensures WholeNoteMs(120) == 2000
    ensures NoteMs(WholeNoteMs(120), 4, false) == 500
    ensures NoteMs(WholeNoteMs(120), 8, true) == 375
  {
  }
}
